=== FILE: README.md ===
# Job tracker client: decision rules

This project models the client-side decision rules of a job-application
tracking web client written in TypeScript/React. Users keep a resume and
location profile, list job postings, see a match score per job, and manage
applications through dialogs backed by a remote actor. The model lifts the
pure rules out of the components and hooks and writes them as functions over
immutable records:

- the job list's search and location filters and the lookup of a job's application (`JobsList`);
- the profile's location string (`ResumeProfileHooks`);
- validation and normalisation of the "Add job" form (`JobForm`);
- loading, editing and saving the location form (`LocationSettings`);
- finding or creating the application for a job against an abstract store (`JobApplications`);
- the application dialog: initialisation, checklist toggle, and the gates on "save draft" and "mark as applied" (`ApplyFlow`);
- the score badge tiers (`MatchScoreBadge`) and the status pill table (`StatusPill`).

The supporting modules model the JavaScript built-ins these rules rely on:
- `Text`: `trim` with the exact ECMAScript whitespace set, ASCII `toLowerCase`, `includes` and `join`.
- `Numerals`: `String(bigint)` and the `BigInt(text)` constructor, including `0x`/`0o`/`0b` prefixes and the error case.
- `Seqs`: `filter`, `find` and `indexOf`.
- `Backend`: the records of `backend.d.ts`.

Remote calls are not executed. Each operation takes a boolean or a reply
value that says whether the backend call succeeds. Each outcome records which
calls were made, with their arguments. The backend's list of applications is
a sequence, and `createApplication` appends to it.

## Model

| member | source | states |
|---|---|---|
| JobsList.FilteredJobs | src/frontend/src/components/JobsList.tsx:26-49 | no jobs loaded gives `[]`; the result is a subsequence of the jobs (nothing added, duplicated or reordered); a job is shown exactly when it passes the search filter (if the trimmed query is non-blank) and the location filter (if enabled with a non-empty location string), and every copy of a passing job is kept |
| JobsList.FilteredJobsIdempotent | src/frontend/src/components/JobsList.tsx:34-46 | filtering the shown jobs again with the same filters shows the same jobs |
| JobsList.NoActiveFilterShowsAll | src/frontend/src/components/JobsList.tsx:32-43 | a blank query with the location filter off shows every loaded job, in order |
| JobsList.QueryIsNotTrimmed | src/frontend/src/components/JobsList.tsx:33-38 | the query is lower-cased but not trimmed: `" dev"` does not match a job titled `dev` |
| JobsList.SortIsIgnored | src/frontend/src/components/JobsList.tsx:22 | the chosen sort order does not change the jobs shown |
| JobsList.ApplicationForJob | src/frontend/src/components/JobsList.tsx:51-53 | nothing while applications are not loaded; otherwise nothing exactly when no application has the job id, else the first one that has it |
| Text.Trim | src/frontend/src/components/JobFormDialog.tsx:31 | the result has no whitespace at either end, is no longer than the input, and is empty exactly when the input is all whitespace |
| Text.TrimIsFramed | src/frontend/src/components/JobFormDialog.tsx:38 | the trimmed text is a stretch of the input with only whitespace on either side |
| Text.TrimIdempotent | src/frontend/src/components/LocationSettings.tsx:36 | trimming twice is trimming once |
| Text.Lower | src/frontend/src/components/JobsList.tsx:33 | same length, and each character is mapped to lower case independently (ASCII letters only) |
| Text.LowerIdempotent | src/frontend/src/components/JobsList.tsx:36-45 | lower-casing already lower-cased text changes nothing |
| Text.Join | src/frontend/src/hooks/useResumeProfile.ts:41 | no parts join to `''`, one part joins to itself, and a non-empty join starts with its first part; with `Text.JoinSnoc` this fixes every join |
| Text.JoinSnoc | src/frontend/src/hooks/useResumeProfile.ts:41 | joining one more part appends the separator and that part, so the separator appears only between parts |
| Text.Includes | src/frontend/src/components/JobsList.tsx:36-38 | true exactly when the needle occurs at some position of the text |
| Seqs.Filter | src/frontend/src/components/JobsList.tsx:34 | the kept elements are exactly those satisfying the predicate, in a subsequence of the input |
| Seqs.FilterMultiset | src/frontend/src/components/JobsList.tsx:34-39 | a filter keeps every copy of a satisfying element and drops every copy of any other |
| Seqs.FilterIdempotent | src/frontend/src/components/JobsList.tsx:45 | filtering twice with the same predicate is filtering once |
| Seqs.FilterCommute | src/frontend/src/components/JobsList.tsx:34-45 | the search and location filters can be applied in either order |
| Seqs.FindFirst | src/frontend/src/components/JobsList.tsx:52 | the index found satisfies the predicate and no earlier one does; nothing is found exactly when no element satisfies it |
| Seqs.IndexOf | src/frontend/src/components/ApplyFlowDialog.tsx:57 | -1 exactly when the value is absent, else the first position holding an equal value (equality by value; see `ApplyFlow.AppIdIsPosition` for why identity gives the same answer there) |
| ResumeProfileHooks.LocationString | src/frontend/src/hooks/useResumeProfile.ts:34-41 | `''` without a profile; with a profile, `''` exactly when city, region and country are all empty |
| ResumeProfileHooks.JoinEmptyIff | src/frontend/src/hooks/useResumeProfile.ts:40-41 | a join of non-empty parts is empty exactly when there are no parts |
| ResumeProfileHooks.LocationStringIsPartByPart | src/frontend/src/hooks/useResumeProfile.ts:39-41 | the join equals adding the non-empty parts city, region, country one by one with `", "` only between two non-empty pieces |
| ResumeProfileHooks.SinglePartHasNoSeparator | src/frontend/src/hooks/useResumeProfile.ts:40-41 | with exactly one non-empty part the result is that part |
| ResumeProfileHooks.EmptyRegionIsSkipped | src/frontend/src/hooks/useResumeProfile.ts:40-41 | city `A`, empty region and country `C` give `"A, C"` |
| JobForm.HandleSubmit | src/frontend/src/components/JobFormDialog.tsx:28-61 | an add call is made exactly when title, company and description are not all whitespace; otherwise the form is kept and nothing is sent; the request carries the trimmed fields and null for each blank optional field; the dialog closes and every field resets to `''` exactly when the add succeeds |
| JobForm.BuildRequest | src/frontend/src/components/JobFormDialog.tsx:37-45 | the four text fields are the trimmed inputs, each empty exactly when all whitespace was typed; each optional field is its `NullIfBlank` value, null exactly when blank |
| JobForm.NullIfBlank | src/frontend/src/components/JobFormDialog.tsx:42-44 | null exactly when the text is all whitespace, otherwise the trimmed text, which is then non-empty |
| JobForm.NormalisationIsIdempotent | src/frontend/src/components/JobFormDialog.tsx:38-44 | typing a submitted request back into the form passes validation and builds the same request |
| LocationSettings.RadiusText | src/frontend/src/components/LocationSettings.tsx:25 | the radius input is `''` exactly when the radius is missing or 0 |
| LocationSettings.RadiusTextReadsBack | src/frontend/src/components/LocationSettings.tsx:25 | the loaded radius text reads back through `BigInt` as the radius, with 0 coming back as no radius |
| LocationSettings.LoadProfile | src/frontend/src/components/LocationSettings.tsx:20-27 | without a profile the form is unchanged; with one, city, region and country are copied, the radius input is the radius's decimal text (`''` for none or 0), and the unsaved-changes flag is untouched |
| LocationSettings.Edit | src/frontend/src/components/LocationSettings.tsx:56-58 | the edited input takes the new text, the others keep theirs, and the form has unsaved changes |
| LocationSettings.SaveButtonFollowsEdits | src/frontend/src/components/LocationSettings.tsx:149 | any edit enables the save button, a pending save disables it, and after a save attempt it is enabled exactly when there were unsaved changes and the save was not both sent and successful |
| LocationSettings.RadiusValue | src/frontend/src/components/LocationSettings.tsx:39 | an empty radius gives no radius; otherwise the `BigInt` reading of the text, failing exactly when `BigInt` throws |
| LocationSettings.HandleSave | src/frontend/src/components/LocationSettings.tsx:29-54 | no save call when city or country is all whitespace or the radius does not parse; otherwise the stored city, region and country are the trimmed inputs, the resume and cover letter come from the profile or are `''`; unsaved changes are cleared only by a successful save |
| LocationSettings.LoadThenSaveKeepsLocation | src/frontend/src/components/LocationSettings.tsx:20-47 | loading a clean profile location and saving it stores the same location and keeps the resume and cover letter, except that a radius of 0 is stored as no radius |
| LocationSettings.SaveOfCleanForm | src/frontend/src/components/LocationSettings.tsx:35-47 | a form that trims to a clean location's parts saves exactly that location |
| LocationSettings.LoadedFormIsClean | src/frontend/src/components/LocationSettings.tsx:21-26 | the form loaded from a clean location trims back to its parts |
| Numerals.IntToStringRoundTrip | src/frontend/src/components/LocationSettings.tsx:39 | `BigInt(String(n))` is `n` for every integer |
| Numerals.IntToString | src/frontend/src/components/MatchScoreBadge.tsx:33 | a minus sign exactly for negative numbers, then a non-empty run of decimal digits with no leading zero except for 0 itself, and no surrounding whitespace |
| Numerals.NatToStringRoundTrip | src/frontend/src/components/MatchScoreBadge.tsx:33 | the decimal digits of a natural number read back as the number |
| Numerals.ParseBigInt | src/frontend/src/components/LocationSettings.tsx:39 | all-whitespace text reads as 0 and never fails |
| JobApplications.QueryApplications | src/frontend/src/hooks/useJobApplications.ts:10-13 | `[]` without an actor, otherwise the store's list |
| JobApplications.FirstIndexForJob | src/frontend/src/hooks/useJobApplications.ts:81 | the first position whose application has the job id; none exactly when no application has it |
| JobApplications.ExistingApp | src/frontend/src/hooks/useJobApplications.ts:78-81 | an unloaded list or a null job id finds nothing; otherwise nothing exactly when no application in the list has the id, else the first that has it |
| JobApplications.CreateApplication | src/frontend/src/hooks/useJobApplications.ts:36-38 | the store grows by exactly one application for the job, appended after the old ones |
| JobApplications.EnsureApplication | src/frontend/src/hooks/useJobApplications.ts:77-89 | a null or empty job id fails with the store unchanged and no create call; an application found in the cached list is returned with no create call; a create call is made exactly when the job id is present and the cached list is unloaded or has no application for the job, and then one application for the job is appended to the store and `{appId, jobId}` is returned, or the failure is passed on with the store unchanged |
| JobApplications.EnsureIsIdempotent | src/frontend/src/hooks/useJobApplications.ts:83-88 | with the cached list equal to the store, after a successful ensure a second ensure finds the application, creates nothing and leaves the store alone |
| JobApplications.EnsureKeepsOnePerJob | src/frontend/src/hooks/useJobApplications.ts:85-88 | with the cached list equal to the store, a store with at most one application per job keeps that property |
| JobApplications.UnloadedListCreatesAgain | src/frontend/src/hooks/useJobApplications.ts:78-87 | while the cached list is unloaded, ensuring creates an application even when the store already has one for the job, leaving two for that job |
| JobApplications.NoActorMeansNothing | src/frontend/src/hooks/useJobApplications.ts:11-37 | without an actor the fetch gives `[]` and the disabled query leaves the list unloaded; either way nothing is found and ensuring fails with the store unchanged, since the create call throws |
| ApplyFlow.DialogApplication | src/frontend/src/components/ApplyFlowDialog.tsx:30 | the first application whose job id matches; none when the list is not loaded or has no match |
| ApplyFlow.InitialCoverLetter | src/frontend/src/components/ApplyFlowDialog.tsx:34 | the custom cover letter if non-empty, else the profile's cover letter, else `''` |
| ApplyFlow.FreshChecklist | src/frontend/src/components/ApplyFlowDialog.tsx:35-39 | exactly the listed items other than `__proto__` (whose assignment on a plain object stores nothing), all unticked |
| ApplyFlow.Initialise | src/frontend/src/components/ApplyFlowDialog.tsx:32-47 | with an application: its checklist items except `__proto__` unticked and the fallback cover letter; with only a profile: "Resume attached" and "Cover letter attached" unticked and the profile's cover letter; with neither: no change |
| ApplyFlow.Toggle | src/frontend/src/components/ApplyFlowDialog.tsx:139 | the toggled item takes the new value and every other item keeps its value |
| ApplyFlow.FreshChecklistGate | src/frontend/src/components/ApplyFlowDialog.tsx:73 | a freshly initialised checklist is all ticked exactly when it holds no item besides `__proto__` |
| ApplyFlow.ProtoItemOpensGate | src/frontend/src/components/ApplyFlowDialog.tsx:35-37 | a checklist whose only item is `__proto__` starts empty, so the gate is open at once |
| ApplyFlow.AppIdOf | src/frontend/src/components/ApplyFlowDialog.tsx:57 | the id sent is the decimal text of a position at or before the application's own that holds an equal application; it is never "-1" |
| ApplyFlow.AllChecked | src/frontend/src/components/ApplyFlowDialog.tsx:73 | every value of the checklist is ticked exactly when every item is ticked |
| ApplyFlow.AppIdIsPosition | src/frontend/src/components/ApplyFlowDialog.tsx:57 | the id sent for the dialog's application is its own position in the list |
| ApplyFlow.SaveDraft | src/frontend/src/components/ApplyFlowDialog.tsx:49-65 | no call without an application; otherwise one cover-letter update with the application's position as id |
| ApplyFlow.MarkAsApplied | src/frontend/src/components/ApplyFlowDialog.tsx:67-94 | no call without an application or with an unticked item; otherwise the cover letter is saved first and, only if that succeeds, the status is set to applied, both with the application's position as id; the dialog closes exactly when both succeed |
| ApplyFlow.StatusUpdateNeedsChecklist | src/frontend/src/components/ApplyFlowDialog.tsx:73-87 | a status update is requested only when every item is ticked, always as the second call, for the same id as the cover letter, and sets applied |
| MatchScoreBadge.ScoreVariant | src/frontend/src/components/MatchScoreBadge.tsx:29 | `default` exactly from 70, `secondary` exactly from 40 below 70, `outline` exactly below 40 |
| MatchScoreBadge.TierIsMonotone | src/frontend/src/components/MatchScoreBadge.tsx:29 | a higher score never gets a lower tier |
| MatchScoreBadge.BadgeView | src/frontend/src/components/MatchScoreBadge.tsx:12-35 | a spinner exactly while loading; an outlined "No match" without a score; otherwise the score's tier and a caption ending in "% match" |
| MatchScoreBadge.ScoreLabelReadsBack | src/frontend/src/components/MatchScoreBadge.tsx:28-33 | the number in the caption reads back as the score, and no score caption is "No match" |
| StatusPill.StatusConfig | src/frontend/src/components/ApplicationStatusPill.tsx:9-15 | every caption except pending's is the status's wire name with a capital first letter; pending alone reads "Draft"; the variant is outline exactly for pending, secondary exactly for interviewing, default exactly for applied and offered, destructive exactly for rejected |
| StatusPill.StatusOfCaption | src/frontend/src/components/ApplicationStatusPill.tsx:9-15 | a caption maps back to the status it belongs to, and to nothing exactly when no status has it |
| StatusPill.LabelsIdentifyStatus | src/frontend/src/components/ApplicationStatusPill.tsx:9-15 | the table is total and each status's caption identifies it |
| StatusPill.PendingIsDraft | src/frontend/src/components/ApplicationStatusPill.tsx:10 | pending is an outlined "Draft" |
| StatusPill.OnlyRejectedIsDestructive | src/frontend/src/components/ApplicationStatusPill.tsx:9-15 | the destructive variant is used for rejected and nothing else |
| StatusPill.AppliedAndOfferedShareVariant | src/frontend/src/components/ApplicationStatusPill.tsx:11-13 | applied and offered share the default variant and have distinct captions |

## Left out

- The match-scoring algorithm behind `calculateJobMatch`. It runs on the backend and its code is not part of this model. Only the `MatchScore` record it returns is modelled.
- Rendering, layout and navigation: `AppLayout`, `App`, `AuthGate`, `JobsFiltersBar` and most of `JobDetail`.
- Query caching, invalidation and refetching. Because of these, an effect can run again and reset the dialog's checklist. `JobApplications.EnsureApplication` takes the cached list (possibly unloaded) and the store as separate inputs, but how the cache is refreshed after a create is not modelled; its lemmas state the case where the cached list equals the store.
- Authentication and identity, `toast` messages, `console.error` and `window.open`.
- Backend behaviour that is not visible: how `addJobPosting`, `saveResumeProfile` and the two update calls change stored data. The model records the calls and their arguments only. What `createApplication` fills in besides the job id is a parameter.
- Text.Lower: lower-cases ASCII letters only, not the full Unicode mapping of `toLowerCase`.
- ApplyFlow.FreshChecklist: a map has no key order, so the display order of `Object.entries` is not modelled.
- MatchScoreBadge.BadgeView: `Number(score)` is treated as exact. Scores beyond 2^53, and the exponent notation JavaScript prints for very large numbers, are not modelled.
- The `required` attributes on the form inputs and the browser's number-input sanitising are not modelled. The handlers' own checks are modelled instead.

=== FILE: apply_flow.dfy ===
/** The application dialog: which application it edits, how its cover letter
    and checklist are initialised, the checklist toggle, and the gates before
    "save draft" and "mark as applied" call the backend
    (components/ApplyFlowDialog.tsx). */
module ApplyFlow {
  import opened Wrappers
  import opened Seqs
  import opened Numerals
  import opened Backend
  import JobApplications

  /** `Record<string, boolean>`: checklist item to whether it is ticked. */
  type Checklist = map<string, bool>

  datatype DialogState = DialogState(coverLetter: string, checklist: Checklist)

  const ResumeAttached: string := "Resume attached"
  const CoverLetterAttached: string := "Cover letter attached"

  /** The dialog's application: the first one for the job, when the list is loaded. */
  function DialogApplication(applications: Option<seq<JobApplication>>, jobId: string): (r: Option<nat>)
    ensures applications.None? ==> r.None?
    ensures applications.Some? ==> (r.None? <==> JobApplications.NoneForJob(applications.value, jobId))
    ensures r.Some? ==> JobApplications.IsFirstForJob(applications.value, jobId, r.value)
  {
    match applications
    case None => None
    case Some(apps) => JobApplications.FirstIndexForJob(apps, jobId)
  }

  /** The application's own cover letter when it has a non-empty one, else the
      profile's cover letter, else the empty text. */
  function InitialCoverLetter(app: JobApplication, profile: Option<ResumeProfile>): (r: string)
    ensures app.customCoverLetter.Some? && app.customCoverLetter.value != "" ==> r == app.customCoverLetter.value
    ensures (app.customCoverLetter.None? || app.customCoverLetter.value == "") ==>
      r == (if profile.Some? then profile.value.coverLetterText else "")
  {
    if app.customCoverLetter.Some? && app.customCoverLetter.value != "" then app.customCoverLetter.value
    else if profile.Some? && profile.value.coverLetterText != "" then profile.value.coverLetterText
    else ""
  }

  /** The one item name a plain object cannot hold through assignment: setting
      it changes the object's prototype instead, and a non-object value is
      ignored, so the item never becomes an entry. */
  const ProtoKey: string := "__proto__"

  /** Every listed item, unticked, written into a fresh plain object one item at
      a time: a repeated item appears once, and an item named `ProtoKey` does
      not appear at all. */
  function FreshChecklist(items: seq<string>): (r: Checklist)
    ensures forall k :: k in r <==> k in items && k != ProtoKey
    ensures forall k :: k in r ==> !r[k]
  {
    map k | k in items && k != ProtoKey :: false
  }

  /** The effect run when the application or the profile changes. */
  function Initialise(state: DialogState, app: Option<JobApplication>, profile: Option<ResumeProfile>): (r: DialogState)
    ensures app.Some? ==>
      && r.coverLetter == InitialCoverLetter(app.value, profile)
      && (forall k :: k in r.checklist <==> k in app.value.submissionChecklist && k != ProtoKey)
      && (forall k :: k in r.checklist ==> !r.checklist[k])
    ensures app.None? && profile.Some? ==>
      && r.coverLetter == profile.value.coverLetterText
      && r.checklist.Keys == {ResumeAttached, CoverLetterAttached}
      && !r.checklist[ResumeAttached] && !r.checklist[CoverLetterAttached]
    ensures app.None? && profile.None? ==> r == state
  {
    match app
    case Some(a) => DialogState(InitialCoverLetter(a, profile), FreshChecklist(a.submissionChecklist))
    case None =>
      match profile
      case Some(p) => DialogState(p.coverLetterText, map[ResumeAttached := false, CoverLetterAttached := false])
      case None => state
  }

  /** Ticking or unticking one item; a new item is added to the checklist. */
  function Toggle(state: DialogState, item: string, checked: bool): (r: DialogState)
    ensures item in r.checklist && r.checklist[item] == checked
    ensures r.checklist.Keys == state.checklist.Keys + {item}
    ensures forall k :: k in state.checklist && k != item ==> r.checklist[k] == state.checklist[k]
    ensures r.coverLetter == state.coverLetter
  {
    state.(checklist := state.checklist[item := checked])
  }

  /** The gate before "mark as applied": every value of the checklist is
      ticked; equivalently, every item is ticked. */
  function AllChecked(checklist: Checklist): (r: bool)
    ensures r <==> forall k :: k in checklist ==> checklist[k]
  {
    assert forall k | k in checklist :: checklist[k] in checklist.Values;
    forall v | v in checklist.Values :: v
  }

  /** Right after initialisation from an application, the gate is open only
      when the checklist holds no item besides `ProtoKey`. */
  lemma FreshChecklistGate(items: seq<string>)
    ensures AllChecked(FreshChecklist(items)) <==> forall k :: k in items ==> k == ProtoKey
  {
    if exists k :: k in items && k != ProtoKey {
      var k :| k in items && k != ProtoKey;
      assert k in FreshChecklist(items);
    }
  }

  /** An application whose only checklist item is `ProtoKey` opens the gate at once. */
  lemma ProtoItemOpensGate()
    ensures FreshChecklist([ProtoKey]) == map[]
    ensures AllChecked(FreshChecklist([ProtoKey]))
  {
  }

  /** The backend updates the dialog can request. */
  datatype Call = UpdateCoverLetter(appId: string, coverLetter: string) | UpdateStatus(appId: string, status: ApplicationStatus)

  /** The id the dialog sends for the application at position `i`: the decimal
      text of the first position holding an equal application. It is never
      "-1", because the application is in the list. */
  function AppIdOf(apps: seq<JobApplication>, i: nat): (r: string)
    requires i < |apps|
    ensures r != [] && r[0] != '-'
    ensures exists k :: 0 <= k <= i && apps[k] == apps[i] && r == IntToString(k)
  {
    IntToString(IndexOf(apps, apps[i]))
  }

  /** The first application for a job is also the first position holding that
      application, so the id sent is its own position. */
  lemma AppIdIsPosition(apps: seq<JobApplication>, jobId: string, i: nat)
    requires JobApplications.IsFirstForJob(apps, jobId, i)
    ensures AppIdOf(apps, i) == IntToString(i)
  {
    assert apps[i] in apps;
  }

  /** "Save draft": one cover-letter update for the dialog's application, or nothing without one. */
  function SaveDraft(applications: Option<seq<JobApplication>>, jobId: string, state: DialogState): (r: seq<Call>)
    ensures DialogApplication(applications, jobId).None? ==> r == []
    ensures DialogApplication(applications, jobId).Some? ==>
      r == [UpdateCoverLetter(IntToString(DialogApplication(applications, jobId).value), state.coverLetter)]
  {
    match DialogApplication(applications, jobId)
    case None => []
    case Some(i) =>
      AppIdIsPosition(applications.value, jobId, i);
      [UpdateCoverLetter(AppIdOf(applications.value, i), state.coverLetter)]
  }

  datatype MarkOutcome = MarkOutcome(calls: seq<Call>, closed: bool)

  /** "Mark as applied", given whether each backend update succeeds: nothing
      without an application or with an unticked item; otherwise the cover
      letter is saved first and, only if that succeeds, the status is set to
      applied; the dialog closes when both succeed. */
  function MarkAsApplied(applications: Option<seq<JobApplication>>, jobId: string, state: DialogState,
                         coverLetterSaved: bool, statusSaved: bool): (r: MarkOutcome)
    ensures DialogApplication(applications, jobId).None? || !AllChecked(state.checklist) ==>
      r.calls == [] && !r.closed
    ensures DialogApplication(applications, jobId).Some? && AllChecked(state.checklist) ==>
      var id := IntToString(DialogApplication(applications, jobId).value);
      && 1 <= |r.calls| && r.calls[0] == UpdateCoverLetter(id, state.coverLetter)
      && (coverLetterSaved ==> r.calls == [UpdateCoverLetter(id, state.coverLetter), UpdateStatus(id, Applied)])
      && (!coverLetterSaved ==> |r.calls| == 1)
    ensures r.closed <==>
      DialogApplication(applications, jobId).Some? && AllChecked(state.checklist) && coverLetterSaved && statusSaved
  {
    match DialogApplication(applications, jobId)
    case None => MarkOutcome([], false)
    case Some(i) =>
      if !AllChecked(state.checklist) then MarkOutcome([], false)
      else
        AppIdIsPosition(applications.value, jobId, i);
        var id := AppIdOf(applications.value, i);
        if !coverLetterSaved then MarkOutcome([UpdateCoverLetter(id, state.coverLetter)], false)
        else MarkOutcome([UpdateCoverLetter(id, state.coverLetter), UpdateStatus(id, Applied)], statusSaved)
  }

  /** A status update is only ever requested for a ticked-off checklist, and
      always right after the cover letter of the same application. */
  lemma StatusUpdateNeedsChecklist(applications: Option<seq<JobApplication>>, jobId: string, state: DialogState,
                                   coverLetterSaved: bool, statusSaved: bool, k: nat)
    requires var calls := MarkAsApplied(applications, jobId, state, coverLetterSaved, statusSaved).calls;
      k < |calls| && calls[k].UpdateStatus?
    ensures AllChecked(state.checklist)
    ensures var calls := MarkAsApplied(applications, jobId, state, coverLetterSaved, statusSaved).calls;
      && k == 1 && calls[0].UpdateCoverLetter? && calls[0].appId == calls[1].appId
      && calls[1].status == Applied
  {
  }
}

=== FILE: backend.dfy ===
/** The records the remote actor exchanges with the client. Optional fields
    (`field?: T`) become `Option<T>`; `bigint` becomes `int`; `Time` is a
    nanosecond count. */
module Backend {
  import opened Wrappers

  datatype Principal = Principal(text: string)

  type Time = int

  datatype GeoLocation = GeoLocation(region: string, country: string, city: string, radiusKm: Option<int>)

  datatype MatchScore = MatchScore(matchedKeywords: seq<string>, jobId: string, score: int)

  datatype ResumeProfile = ResumeProfile(resumeText: string, coverLetterText: string, location: GeoLocation)

  datatype JobPosting = JobPosting(
    id: string,
    title: string,
    owner: Principal,
    description: string,
    company: string,
    applicationUrl: Option<string>,
    datePosted: Time,
    requirements: Option<string>,
    location: string,
    contactDetails: Option<string>)

  datatype ApplicationStatus = Pending | Applied | Rejected | Interviewing | Offered

  /** The string each status is sent as. */
  function StatusName(s: ApplicationStatus): string {
    match s
    case Pending => "pending"
    case Applied => "applied"
    case Rejected => "rejected"
    case Interviewing => "interviewing"
    case Offered => "offered"
  }

  datatype JobApplication = JobApplication(
    status: ApplicationStatus,
    owner: Principal,
    submissionChecklist: seq<string>,
    customCoverLetter: Option<string>,
    jobId: string,
    dateApplied: Time,
    resumeId: string,
    applicationSource: Option<string>)
}

=== FILE: badge.dfy ===
/** The visual variants of the badge component, shared by the score badge and the status pill. */
module Badge {
  datatype Variant = Default | Secondary | Outline | Destructive
}

=== FILE: job_applications.dfy ===
/** The applications query and the find-or-create of an application for a job
    (hooks/useJobApplications.ts). The backend's list of applications is an
    abstract store: a sequence that `createApplication` appends to. */
module JobApplications {
  import opened Wrappers
  import opened Seqs
  import opened Backend

  /** Position `i` holds the first application for `jobId`. */
  predicate IsFirstForJob(apps: seq<JobApplication>, jobId: string, i: int) {
    && 0 <= i < |apps|
    && apps[i].jobId == jobId
    && forall j :: 0 <= j < i ==> apps[j].jobId != jobId
  }

  predicate NoneForJob(apps: seq<JobApplication>, jobId: string) {
    forall j :: 0 <= j < |apps| ==> apps[j].jobId != jobId
  }

  /** No two applications are for the same job. */
  predicate AtMostOnePerJob(apps: seq<JobApplication>) {
    forall i, j :: 0 <= i < j < |apps| ==> apps[i].jobId != apps[j].jobId
  }

  /** The position of the first application for the job, as a search by job id finds it. */
  function FirstIndexForJob(apps: seq<JobApplication>, jobId: string): (r: Option<nat>)
    ensures r.Some? ==> IsFirstForJob(apps, jobId, r.value)
    ensures r.None? <==> NoneForJob(apps, jobId)
  {
    FindFirst(apps, (app: JobApplication) => app.jobId == jobId)
  }

  /** `existingApp`, looked up in the cached list of applications: nothing
      while the list is not loaded or for a null job id, otherwise the first
      application for the job. */
  function ExistingApp(cached: Option<seq<JobApplication>>, jobId: Option<string>): (r: Option<JobApplication>)
    ensures cached.None? || jobId.None? ==> r.None?
    ensures cached.Some? && jobId.Some? ==> (r.None? <==> NoneForJob(cached.value, jobId.value))
    ensures r.Some? ==>
      && cached.Some? && jobId.Some?
      && exists i :: IsFirstForJob(cached.value, jobId.value, i) && cached.value[i] == r.value
  {
    match (cached, jobId)
    case (Some(apps), Some(id)) =>
      (match FirstIndexForJob(apps, id)
       case None => None
       case Some(i) => Some(apps[i]))
    case _ => None
  }

  /** The applications query's fetch: `[]` when no actor is available,
      otherwise the store's list. */
  function QueryApplications(actor: Option<seq<JobApplication>>): (r: seq<JobApplication>)
    ensures actor.None? ==> r == []
    ensures actor.Some? ==> r == actor.value
  {
    match actor
    case None => []
    case Some(store) => store
  }

  /** Everything about a new application that the backend decides; its code is
      not part of this model. */
  datatype Issued = Issued(
    appId: string,
    status: ApplicationStatus,
    owner: Principal,
    submissionChecklist: seq<string>,
    customCoverLetter: Option<string>,
    dateApplied: Time,
    resumeId: string,
    applicationSource: Option<string>)

  /** The backend's answer to `createApplication`: the new record, or a failure
      (a missing actor included). */
  datatype CreateReply = CreateOk(issued: Issued) | CreateRejected

  /** `createApplication(jobId)` on the store: one new application for the job, appended. */
  function CreateApplication(apps: seq<JobApplication>, jobId: string, issued: Issued): (r: seq<JobApplication>)
    ensures |r| == |apps| + 1 && r[..|apps|] == apps
    ensures r[|apps|].jobId == jobId
  {
    var i := issued;
    apps + [JobApplication(i.status, i.owner, i.submissionChecklist, i.customCoverLetter,
                           jobId, i.dateApplied, i.resumeId, i.applicationSource)]
  }

  datatype Ensured = Existing(app: JobApplication) | Created(appId: string, jobId: string)

  datatype EnsureError = JobIdRequired | CreateFailed

  /** What `ensureApplication` returns or throws, the store after it, and
      whether it called `createApplication`. */
  datatype EnsureOutcome = EnsureOutcome(result: Result<Ensured, EnsureError>, apps: seq<JobApplication>, createCalled: bool)

  /** A job id JavaScript treats as present: not null and not empty. */
  predicate HasJobId(jobId: Option<string>) {
    jobId.Some? && jobId.value != ""
  }

  /** `ensureApplication`: fail without a job id, return the existing
      application found in the cached list, or otherwise create one in the
      store. The cached list is the query's last answer and may be missing
      (not loaded yet); the store is what the backend holds. */
  function EnsureApplication(cached: Option<seq<JobApplication>>, store: seq<JobApplication>,
                             jobId: Option<string>, reply: CreateReply): (r: EnsureOutcome)
    ensures !HasJobId(jobId) ==> r.result == Failure(JobIdRequired) && r.apps == store && !r.createCalled
    ensures HasJobId(jobId) && cached.Some? && !NoneForJob(cached.value, jobId.value) ==>
      && r.apps == store && !r.createCalled
      && r.result.Success? && r.result.value.Existing?
      && exists i :: IsFirstForJob(cached.value, jobId.value, i) && cached.value[i] == r.result.value.app
    ensures r.createCalled <==> HasJobId(jobId) && (cached.None? || NoneForJob(cached.value, jobId.value))
    ensures r.createCalled && reply.CreateOk? ==>
      && r.result == Success(Created(reply.issued.appId, jobId.value))
      && |r.apps| == |store| + 1 && r.apps[..|store|] == store && r.apps[|store|].jobId == jobId.value
    ensures r.createCalled && reply.CreateRejected? ==>
      r.result == Failure(CreateFailed) && r.apps == store
  {
    if !HasJobId(jobId) then EnsureOutcome(Failure(JobIdRequired), store, false)
    else
      match ExistingApp(cached, jobId)
      case Some(app) => EnsureOutcome(Success(Existing(app)), store, false)
      case None =>
        match reply
        case CreateRejected => EnsureOutcome(Failure(CreateFailed), store, true)
        case CreateOk(issued) =>
          EnsureOutcome(Success(Created(issued.appId, jobId.value)),
                        CreateApplication(store, jobId.value, issued), true)
  }

  /** With the cached list up to date, ensuring twice creates at most once:
      the second call finds the first call's application and leaves the store
      alone. */
  lemma EnsureIsIdempotent(store: seq<JobApplication>, jobId: Option<string>, first: CreateReply, second: CreateReply)
    requires EnsureApplication(Some(store), store, jobId, first).result.Success?
    ensures var once := EnsureApplication(Some(store), store, jobId, first);
      var twice := EnsureApplication(Some(once.apps), once.apps, jobId, second);
      && twice.result.Success? && twice.result.value.Existing?
      && twice.apps == once.apps && !twice.createCalled
  {
    var once := EnsureApplication(Some(store), store, jobId, first);
    if NoneForJob(store, jobId.value) {
      assert once.apps[|store|].jobId == jobId.value;
      assert !NoneForJob(once.apps, jobId.value);
    }
  }

  /** With the cached list up to date, a store holding at most one application
      per job keeps that property through `ensureApplication`. */
  lemma EnsureKeepsOnePerJob(store: seq<JobApplication>, jobId: Option<string>, reply: CreateReply)
    requires AtMostOnePerJob(store)
    ensures AtMostOnePerJob(EnsureApplication(Some(store), store, jobId, reply).apps)
  {
    var r := EnsureApplication(Some(store), store, jobId, reply).apps;
    if r != store {
      forall i, j | 0 <= i < j < |r|
        ensures r[i].jobId != r[j].jobId
      {
        assert r[i] == store[i];
        if j < |store| {
          assert r[j] == store[j];
        }
      }
    }
  }

  /** While the cached list is not loaded, `ensureApplication` creates an
      application even when the store already holds one for the job, which
      leaves two applications for that job. */
  lemma UnloadedListCreatesAgain(store: seq<JobApplication>, jobId: string, issued: Issued)
    requires jobId != "" && !NoneForJob(store, jobId)
    ensures var r := EnsureApplication(None, store, Some(jobId), CreateOk(issued));
      && r.createCalled && r.result == Success(Created(issued.appId, jobId))
      && !AtMostOnePerJob(r.apps)
  {
    var r := EnsureApplication(None, store, Some(jobId), CreateOk(issued));
    var i :| 0 <= i < |store| && store[i].jobId == jobId;
    assert r.apps[i] == store[i];
    assert r.apps[|store|].jobId == jobId;
  }

  /** Without an actor the query is disabled, so the cached list stays
      unloaded (or, if its fetch runs, is `[]`); nothing is found for any job;
      and `ensureApplication` fails without changing the store, because
      `createApplication` throws for want of an actor (`CreateRejected`). */
  lemma NoActorMeansNothing(jobId: Option<string>)
    ensures QueryApplications(None) == []
    ensures ExistingApp(None, jobId).None?
    ensures ExistingApp(Some(QueryApplications(None)), jobId).None?
    ensures var r := EnsureApplication(None, [], jobId, CreateRejected);
      r.result.Failure? && r.apps == []
    ensures var r := EnsureApplication(Some(QueryApplications(None)), [], jobId, CreateRejected);
      r.result.Failure? && r.apps == []
  {
  }
}

=== FILE: job_form.dfy ===
/** Validation and normalisation of the "Add job" form (`handleSubmit` in
    components/JobFormDialog.tsx). */
module JobForm {
  import opened Wrappers
  import opened Text

  /** The form's seven text fields, as typed. */
  datatype JobFormData = JobFormData(
    title: string,
    company: string,
    location: string,
    description: string,
    requirements: string,
    applicationUrl: string,
    contactDetails: string)

  const EmptyForm: JobFormData := JobFormData("", "", "", "", "", "", "")

  /** The arguments of the `addJobPosting` call. */
  datatype AddJobRequest = AddJobRequest(
    title: string,
    company: string,
    location: string,
    description: string,
    requirements: Option<string>,
    applicationUrl: Option<string>,
    contactDetails: Option<string>)

  datatype SubmitError = MissingRequired | AddFailed

  /** The form after submission, the add call made (if any), whether the dialog
      was closed, and the error reported. */
  datatype SubmitOutcome = SubmitOutcome(
    form: JobFormData,
    request: Option<AddJobRequest>,
    closed: bool,
    error: Option<SubmitError>)

  /** An optional field as sent: the trimmed text, or null when nothing but whitespace was typed. */
  function NullIfBlank(s: string): (r: Option<string>)
    ensures r.None? <==> AllWhitespace(s)
    ensures r.Some? ==> r.value == Trim(s) && r.value != "" && IsTrimmed(r.value)
  {
    var t := Trim(s);
    if t == "" then None else Some(t)
  }

  /** Title, company and description are required; location is not. */
  predicate RequiredFilled(f: JobFormData) {
    Trim(f.title) != "" && Trim(f.company) != "" && Trim(f.description) != ""
  }

  /** The request built from the form: the four text fields trimmed, each
      empty exactly when nothing but whitespace was typed, and the three
      optional fields null when blank. */
  function BuildRequest(f: JobFormData): (r: AddJobRequest)
    ensures r.title == Trim(f.title) && r.company == Trim(f.company)
    ensures r.location == Trim(f.location) && r.description == Trim(f.description)
    ensures IsTrimmed(r.title) && IsTrimmed(r.company) && IsTrimmed(r.location) && IsTrimmed(r.description)
    ensures r.title == "" <==> AllWhitespace(f.title)
    ensures r.company == "" <==> AllWhitespace(f.company)
    ensures r.location == "" <==> AllWhitespace(f.location)
    ensures r.description == "" <==> AllWhitespace(f.description)
    ensures r.requirements == NullIfBlank(f.requirements)
    ensures r.applicationUrl == NullIfBlank(f.applicationUrl)
    ensures r.contactDetails == NullIfBlank(f.contactDetails)
    ensures r.requirements.None? <==> AllWhitespace(f.requirements)
    ensures r.applicationUrl.None? <==> AllWhitespace(f.applicationUrl)
    ensures r.contactDetails.None? <==> AllWhitespace(f.contactDetails)
  {
    AddJobRequest(
      Trim(f.title), Trim(f.company), Trim(f.location), Trim(f.description),
      NullIfBlank(f.requirements), NullIfBlank(f.applicationUrl), NullIfBlank(f.contactDetails))
  }

  /** `handleSubmit`, given whether the backend accepts the add. */
  function HandleSubmit(f: JobFormData, addSucceeds: bool): (r: SubmitOutcome)
    ensures r.request.Some? <==>
      !AllWhitespace(f.title) && !AllWhitespace(f.company) && !AllWhitespace(f.description)
    ensures r.request.None? ==> r.form == f && !r.closed && r.error == Some(MissingRequired)
    ensures r.request.Some? ==>
      var q := r.request.value;
      && q.title == Trim(f.title) && q.company == Trim(f.company)
      && q.location == Trim(f.location) && q.description == Trim(f.description)
      && q.requirements == NullIfBlank(f.requirements)
      && q.applicationUrl == NullIfBlank(f.applicationUrl)
      && q.contactDetails == NullIfBlank(f.contactDetails)
      && (q.location == "" <==> AllWhitespace(f.location))
      && (q.requirements.None? <==> AllWhitespace(f.requirements))
      && (q.applicationUrl.None? <==> AllWhitespace(f.applicationUrl))
      && (q.contactDetails.None? <==> AllWhitespace(f.contactDetails))
    ensures r.closed <==> r.request.Some? && addSucceeds
    ensures r.closed ==> r.form == EmptyForm && r.error.None?
    ensures r.request.Some? && !addSucceeds ==> r.form == f && r.error == Some(AddFailed)
  {
    if !RequiredFilled(f) then SubmitOutcome(f, None, false, Some(MissingRequired))
    else
      var q := BuildRequest(f);
      if addSucceeds then SubmitOutcome(EmptyForm, Some(q), true, None)
      else SubmitOutcome(f, Some(q), false, Some(AddFailed))
  }

  /** The form a request would be typed back into (null becomes the empty field). */
  function FormOf(q: AddJobRequest): JobFormData {
    JobFormData(q.title, q.company, q.location, q.description,
                q.requirements.GetOr(""), q.applicationUrl.GetOr(""), q.contactDetails.GetOr(""))
  }

  /** An optional field read back from its submitted value normalises to that value. */
  lemma NullIfBlankStable(s: string)
    ensures NullIfBlank(NullIfBlank(s).GetOr("")) == NullIfBlank(s)
  {
    TrimIdempotent(s);
    if NullIfBlank(s).None? {
      assert NullIfBlank(s).GetOr("") == "";
      assert AllWhitespace("");
    }
  }

  /** Normalisation is idempotent: typing a submitted request back into the
      form and submitting again passes validation and sends the same request. */
  lemma NormalisationIsIdempotent(f: JobFormData)
    requires RequiredFilled(f)
    ensures RequiredFilled(FormOf(BuildRequest(f)))
    ensures BuildRequest(FormOf(BuildRequest(f))) == BuildRequest(f)
  {
    TrimIdempotent(f.title);
    TrimIdempotent(f.company);
    TrimIdempotent(f.location);
    TrimIdempotent(f.description);
    NullIfBlankStable(f.requirements);
    NullIfBlankStable(f.applicationUrl);
    NullIfBlankStable(f.contactDetails);
  }
}

=== FILE: jobs_list.dfy ===
/** The job list's search and location filters and its application lookup
    (`filteredAndSortedJobs` and `getApplicationForJob` in components/JobsList.tsx). */
module JobsList {
  import opened Wrappers
  import opened Seqs
  import opened Text
  import opened Backend
  import JobApplications

  /** The sort order the user can pick; it is held in state but never applied. */
  datatype SortBy = Date | Score

  datatype Filters = Filters(
    searchQuery: string,
    locationFilterEnabled: bool,
    locationString: string,
    sortBy: SortBy)

  /** The search filter runs only when the query is not blank. */
  predicate SearchActive(f: Filters) {
    Trim(f.searchQuery) != ""
  }

  /** The lower-cased (but untrimmed) query occurs in the lower-cased title, company or location. */
  predicate MatchesSearch(query: string, job: JobPosting) {
    var q := Lower(query);
    Includes(Lower(job.title), q) || Includes(Lower(job.company), q) || Includes(Lower(job.location), q)
  }

  /** The location filter runs only when switched on and the profile's location string is non-empty. */
  predicate LocationActive(f: Filters) {
    f.locationFilterEnabled && f.locationString != ""
  }

  /** The job's lower-cased location contains the lower-cased location string. */
  predicate MatchesLocation(locationString: string, job: JobPosting) {
    Includes(Lower(job.location), Lower(locationString))
  }

  /** Whether a job survives both filters, read as a single condition. */
  predicate Passes(f: Filters, job: JobPosting) {
    && (SearchActive(f) ==> MatchesSearch(f.searchQuery, job))
    && (LocationActive(f) ==> MatchesLocation(f.locationString, job))
  }

  function SearchStage(f: Filters, jobs: seq<JobPosting>): (r: seq<JobPosting>)
    ensures IsSubsequence(r, jobs)
    ensures forall job ::
      multiset(r)[job] == if SearchActive(f) ==> MatchesSearch(f.searchQuery, job) then multiset(jobs)[job] else 0
  {
    SubsequenceReflexive(jobs);
    FilterMultiset(jobs, job => MatchesSearch(f.searchQuery, job));
    if SearchActive(f) then Filter(jobs, job => MatchesSearch(f.searchQuery, job)) else jobs
  }

  function LocationStage(f: Filters, jobs: seq<JobPosting>): (r: seq<JobPosting>)
    ensures IsSubsequence(r, jobs)
    ensures forall job ::
      multiset(r)[job] == if LocationActive(f) ==> MatchesLocation(f.locationString, job) then multiset(jobs)[job] else 0
  {
    SubsequenceReflexive(jobs);
    FilterMultiset(jobs, job => MatchesLocation(f.locationString, job));
    if LocationActive(f) then Filter(jobs, job => MatchesLocation(f.locationString, job)) else jobs
  }

  /** The jobs shown: none while the list is not loaded; otherwise the search
      filter, then the location filter. */
  function FilteredJobs(jobs: Option<seq<JobPosting>>, f: Filters): (r: seq<JobPosting>)
    ensures jobs.None? ==> r == []
    ensures jobs.Some? ==> IsSubsequence(r, jobs.value)
    ensures forall job :: job in r <==> jobs.Some? && job in jobs.value && Passes(f, job)
    ensures jobs.Some? ==> forall job :: multiset(r)[job] == if Passes(f, job) then multiset(jobs.value)[job] else 0
  {
    match jobs
    case None => []
    case Some(all) =>
      var afterSearch := SearchStage(f, all);
      assert forall job :: job in afterSearch <==> job in all && (SearchActive(f) ==> MatchesSearch(f.searchQuery, job));
      var r := LocationStage(f, afterSearch);
      SubsequenceTransitive(r, afterSearch, all);
      r
  }

  /** The sort choice has no effect on the jobs shown. */
  lemma SortIsIgnored(jobs: Option<seq<JobPosting>>, f: Filters, s: SortBy)
    ensures FilteredJobs(jobs, f.(sortBy := s)) == FilteredJobs(jobs, f)
  {
  }

  /** With a blank query and the location filter off, every loaded job is shown, in order. */
  lemma NoActiveFilterShowsAll(jobs: seq<JobPosting>, f: Filters)
    requires AllWhitespace(f.searchQuery)
    requires !LocationActive(f)
    ensures FilteredJobs(Some(jobs), f) == jobs
  {
  }

  /** Applying the same filters to the jobs shown shows the same jobs again. */
  lemma FilteredJobsIdempotent(jobs: Option<seq<JobPosting>>, f: Filters)
    ensures FilteredJobs(Some(FilteredJobs(jobs, f)), f) == FilteredJobs(jobs, f)
  {
    if jobs.Some? {
      var ps := (job: JobPosting) => MatchesSearch(f.searchQuery, job);
      var pl := (job: JobPosting) => MatchesLocation(f.locationString, job);
      var all := jobs.value;
      if SearchActive(f) && LocationActive(f) {
        var once := Filter(Filter(all, ps), pl);
        FilterCommute(Filter(all, ps), ps, pl);
        FilterIdempotent(all, ps);
        FilterIdempotent(Filter(all, ps), pl);
        assert Filter(once, ps) == once;
      } else if SearchActive(f) {
        FilterIdempotent(all, ps);
      } else if LocationActive(f) {
        FilterIdempotent(all, pl);
      }
    }
  }

  /** Surrounding spaces in the query take part in matching: `" dev"` does not
      find a job titled `"dev"` even though the query is not blank. */
  lemma QueryIsNotTrimmed(job: JobPosting)
    requires job.title == "dev" && job.company == "" && job.location == ""
    ensures !MatchesSearch(" dev", job)
  {
    assert Lower(" dev") == " dev";
    assert Lower("dev") == "dev";
    assert Lower("") == "";
  }

  /** The application shown with a job: nothing while the applications are not
      loaded, otherwise the first one for the job. */
  function ApplicationForJob(applications: Option<seq<JobApplication>>, jobId: string): (r: Option<JobApplication>)
    ensures applications.None? ==> r.None?
    ensures applications.Some? ==> (r.None? <==> JobApplications.NoneForJob(applications.value, jobId))
    ensures r.Some? ==> exists i :: JobApplications.IsFirstForJob(applications.value, jobId, i) && applications.value[i] == r.value
  {
    JobApplications.ExistingApp(applications, Some(jobId))
  }
}

=== FILE: location_settings.dfy ===
/** The location form: loading it from the profile, editing it, and the
    validation and construction of the saved location (components/LocationSettings.tsx). */
module LocationSettings {
  import opened Wrappers
  import opened Text
  import opened Numerals
  import opened Backend

  /** The four inputs, as text, and whether there are unsaved edits. */
  datatype LocationForm = LocationForm(city: string, region: string, country: string, radiusKm: string, hasChanges: bool)

  /** The radius as loaded into its input: `''` for a missing radius and for 0,
      whose `bigint` is falsy; otherwise its decimal text, which reads back as
      the same radius. */
  function RadiusText(radius: Option<int>): (r: string)
    ensures r == "" <==> radius.None? || radius.value == 0
  {
    if radius.None? || radius.value == 0 then "" else IntToString(radius.value)
  }

  /** The effect run when the profile arrives: copy its location into the form.
      Without a profile the form is left as it is; the unsaved-changes flag is never touched. */
  function LoadProfile(form: LocationForm, profile: Option<ResumeProfile>): (r: LocationForm)
    ensures profile.None? ==> r == form
    ensures profile.Some? ==>
      var loc := profile.value.location;
      && r.city == loc.city && r.region == loc.region && r.country == loc.country
      && (r.radiusKm == "" <==> loc.radiusKm.None? || loc.radiusKm == Some(0))
      && r.radiusKm == RadiusText(loc.radiusKm)
      && r.hasChanges == form.hasChanges
  {
    match profile
    case None => form
    case Some(p) =>
      form.(city := p.location.city, region := p.location.region,
            country := p.location.country, radiusKm := RadiusText(p.location.radiusKm))
  }

  datatype Field = City | Region | Country | Radius

  /** Typing into one input: that input takes the new text and the form has unsaved changes. */
  function Edit(form: LocationForm, field: Field, text: string): (r: LocationForm)
    ensures r.hasChanges
    ensures r.city == (if field == City then text else form.city)
    ensures r.region == (if field == Region then text else form.region)
    ensures r.country == (if field == Country then text else form.country)
    ensures r.radiusKm == (if field == Radius then text else form.radiusKm)
  {
    match field
    case City => form.(city := text, hasChanges := true)
    case Region => form.(region := text, hasChanges := true)
    case Country => form.(country := text, hasChanges := true)
    case Radius => form.(radiusKm := text, hasChanges := true)
  }

  /** The save button is enabled only while no save is pending and there are unsaved changes. */
  predicate CanSave(form: LocationForm, savePending: bool) {
    !savePending && form.hasChanges
  }

  /** Any edit enables the save button; a pending save disables it; a
      successful save disables it until the next edit, while a refused or
      failed save leaves it as it was. */
  lemma SaveButtonFollowsEdits(form: LocationForm, field: Field, text: string,
                               profile: Option<ResumeProfile>, saveSucceeds: bool)
    ensures CanSave(Edit(form, field, text), false)
    ensures !CanSave(form, true)
    ensures var r := HandleSave(form, profile, saveSucceeds);
      CanSave(form.(hasChanges := r.hasChanges), false) <==>
        form.hasChanges && !(r.request.Some? && saveSucceeds)
  {
  }

  /** The arguments of the `saveResumeProfile` call. */
  datatype SaveRequest = SaveRequest(resumeText: string, coverLetterText: string, location: GeoLocation)

  /** `InvalidRadius` is the SyntaxError `BigInt` throws before the save is attempted. */
  datatype SaveError = MissingCityOrCountry | InvalidRadius | SaveFailed

  datatype SaveOutcome = SaveOutcome(request: Option<SaveRequest>, hasChanges: bool, error: Option<SaveError>)

  /** The radius sent with the location: none for an empty input, otherwise the
      input read as a big integer; the outer `None` is the error thrown when the
      text is not a valid integer. */
  function RadiusValue(text: string): (r: Option<Option<int>>)
    ensures text == "" ==> r == Some(None)
    ensures text != "" ==> (r.None? <==> ParseBigInt(text).None?)
    ensures text != "" && r.Some? ==> r.value.Some? && r.value == ParseBigInt(text)
  {
    if text == "" then Some(None)
    else
      match ParseBigInt(text)
      case None => None
      case Some(n) => Some(Some(n))
  }

  /** `handleSave`, given whether the backend accepts the save. */
  function HandleSave(form: LocationForm, profile: Option<ResumeProfile>, saveSucceeds: bool): (r: SaveOutcome)
    ensures AllWhitespace(form.city) || AllWhitespace(form.country) ==>
      r.request.None? && r.error == Some(MissingCityOrCountry)
    ensures r.request.None? <==>
      || AllWhitespace(form.city) || AllWhitespace(form.country)
      || RadiusValue(form.radiusKm).None?
    ensures r.request.Some? ==>
      var q := r.request.value;
      && q.location.city == Trim(form.city) && q.location.city != ""
      && q.location.region == Trim(form.region)
      && q.location.country == Trim(form.country) && q.location.country != ""
      && Some(q.location.radiusKm) == RadiusValue(form.radiusKm)
      && q.resumeText == (if profile.Some? then profile.value.resumeText else "")
      && q.coverLetterText == (if profile.Some? then profile.value.coverLetterText else "")
    ensures r.request.Some? && saveSucceeds ==> !r.hasChanges && r.error.None?
    ensures r.request.Some? && !saveSucceeds ==> r.hasChanges == form.hasChanges && r.error == Some(SaveFailed)
    ensures r.request.None? ==> r.hasChanges == form.hasChanges && r.error.Some?
  {
    if Trim(form.city) == "" || Trim(form.country) == "" then
      SaveOutcome(None, form.hasChanges, Some(MissingCityOrCountry))
    else
      match RadiusValue(form.radiusKm)
      case None => SaveOutcome(None, form.hasChanges, Some(InvalidRadius))
      case Some(radius) =>
        var location := GeoLocation(Trim(form.region), Trim(form.country), Trim(form.city), radius);
        // A missing profile gives empty texts; an empty text falls back to the same empty text.
        var resumeText := if profile.Some? then profile.value.resumeText else "";
        var coverLetterText := if profile.Some? then profile.value.coverLetterText else "";
        var request := SaveRequest(resumeText, coverLetterText, location);
        if saveSucceeds then SaveOutcome(Some(request), false, None)
        else SaveOutcome(Some(request), form.hasChanges, Some(SaveFailed))
  }

  /** Reading back the loaded radius text gives the radius, except that 0 reads back as none. */
  lemma RadiusTextReadsBack(radius: Option<int>)
    ensures RadiusValue(RadiusText(radius)) == Some(if radius == Some(0) then None else radius)
  {
    if radius.Some? && radius.value != 0 {
      IntToStringRoundTrip(radius.value);
    }
  }

  /** A location the form can hold unchanged: required parts present and no
      whitespace at the ends of any part. */
  predicate IsCleanLocation(loc: GeoLocation) {
    && loc.city != "" && IsTrimmed(loc.city)
    && loc.country != "" && IsTrimmed(loc.country)
    && IsTrimmed(loc.region)
  }

  /** Saving a form whose fields trim to a clean location's parts and whose
      radius text reads as `radius` stores exactly that location. */
  lemma SaveOfCleanForm(form: LocationForm, p: ResumeProfile, radius: Option<int>, saveSucceeds: bool)
    requires IsCleanLocation(p.location)
    requires Trim(form.city) == p.location.city && Trim(form.country) == p.location.country
    requires Trim(form.region) == p.location.region
    requires RadiusValue(form.radiusKm) == Some(radius)
    ensures HandleSave(form, Some(p), saveSucceeds).request ==
      Some(SaveRequest(p.resumeText, p.coverLetterText, p.location.(radiusKm := radius)))
  {
  }

  /** Loading a clean profile location into the form and saving it stores the
      same location and keeps the resume and cover letter, except that a radius
      of 0 comes back as no radius. */
  lemma LoadThenSaveKeepsLocation(form: LocationForm, p: ResumeProfile, saveSucceeds: bool)
    requires IsCleanLocation(p.location)
    ensures var loaded := LoadProfile(form, Some(p));
      var loc := p.location;
      HandleSave(loaded, Some(p), saveSucceeds).request ==
        Some(SaveRequest(p.resumeText, p.coverLetterText,
                         loc.(radiusKm := if loc.radiusKm == Some(0) then None else loc.radiusKm)))
  {
    var loc := p.location;
    var loaded := LoadProfile(form, Some(p));
    LoadedFormIsClean(form, p);
    SaveOfCleanForm(loaded, p, if loc.radiusKm == Some(0) then None else loc.radiusKm, saveSucceeds);
  }

  /** The form loaded from a clean location trims back to its parts and reads
      back its radius (0 as none). */
  lemma LoadedFormIsClean(form: LocationForm, p: ResumeProfile)
    requires IsCleanLocation(p.location)
    ensures var loaded := LoadProfile(form, Some(p));
      var loc := p.location;
      && Trim(loaded.city) == loc.city && Trim(loaded.country) == loc.country
      && Trim(loaded.region) == loc.region
      && RadiusValue(loaded.radiusKm) == Some(if loc.radiusKm == Some(0) then None else loc.radiusKm)
  {
    var loaded := LoadProfile(form, Some(p));
    assert loaded.city == p.location.city && loaded.country == p.location.country;
    assert loaded.region == p.location.region;
    assert loaded.radiusKm == RadiusText(p.location.radiusKm);
    CleanPartsTrimToThemselves(p.location);
    RadiusTextReadsBack(p.location.radiusKm);
  }

  lemma CleanPartsTrimToThemselves(loc: GeoLocation)
    requires IsCleanLocation(loc)
    ensures Trim(loc.city) == loc.city && Trim(loc.country) == loc.country && Trim(loc.region) == loc.region
  {
    TrimOfTrimmed(loc.city);
    TrimOfTrimmed(loc.region);
    TrimOfTrimmed(loc.country);
  }
}

=== FILE: match_score_badge.dfy ===
/** The match-score badge: which variant and label a job's match score is
    shown with (components/MatchScoreBadge.tsx). The score itself comes from
    the backend, whose scoring is not part of this model. */
module MatchScoreBadge {
  import opened Wrappers
  import opened Numerals
  import opened Backend
  import opened Badge

  /** A spinner while the score loads, otherwise a badge. */
  datatype View = Spinner | Shown(variant: Variant, caption: string)

  const NoMatchLabel: string := "No match"
  const MatchSuffix: string := "% match"

  /** The badge variant of a score: default from 70, secondary from 40, outline below. */
  function ScoreVariant(score: int): (v: Variant)
    ensures v == Default <==> score >= 70
    ensures v == Secondary <==> 40 <= score < 70
    ensures v == Outline <==> score < 40
  {
    if score >= 70 then Default else if score >= 40 then Secondary else Outline
  }

  /** Rank of the three score tiers, lowest first. No score is shown as
      destructive; it is ranked with the lowest tier only so that every variant
      has a rank. */
  function Tier(v: Variant): nat {
    match v
    case Outline => 0
    case Secondary => 1
    case Default => 2
    case Destructive => 0
  }

  /** A higher score never gets a lower tier. */
  lemma TierIsMonotone(a: int, b: int)
    requires a <= b
    ensures Tier(ScoreVariant(a)) <= Tier(ScoreVariant(b))
  {
  }

  /** The badge for a job's score query. */
  function BadgeView(isLoading: bool, matchScore: Option<MatchScore>): (r: View)
    ensures isLoading <==> r.Spinner?
    ensures !isLoading && matchScore.None? ==> r == Shown(Outline, NoMatchLabel)
    ensures !isLoading && matchScore.Some? ==>
      && r.Shown? && r.variant == ScoreVariant(matchScore.value.score)
      && |r.caption| > |MatchSuffix| && r.caption[|r.caption| - |MatchSuffix|..] == MatchSuffix
  {
    if isLoading then Spinner
    else
      match matchScore
      case None => Shown(Outline, NoMatchLabel)
      case Some(m) => Shown(ScoreVariant(m.score), IntToString(m.score) + MatchSuffix)
  }

  /** The number in a score badge's label reads back as the score, and no
      score badge reads "No match". */
  lemma ScoreLabelReadsBack(m: MatchScore)
    ensures var caption := BadgeView(false, Some(m)).caption;
      && ParseBigInt(caption[..|caption| - |MatchSuffix|]) == Some(m.score)
      && caption != NoMatchLabel
  {
    var caption := BadgeView(false, Some(m)).caption;
    assert caption[..|caption| - |MatchSuffix|] == IntToString(m.score);
    IntToStringRoundTrip(m.score);
    assert caption[|caption| - 7] == '%';
    assert NoMatchLabel[|NoMatchLabel| - 7] == 'o';
  }
}

=== FILE: numerals.dfy ===
/** Conversions between arbitrary-precision integers and their text:
    `String(n)` for a `bigint` and the `BigInt(text)` constructor. */
module Numerals {
  import opened Wrappers
  import opened Text

  function DigitChar(d: nat): (c: char)
    requires d < 10
    ensures '0' <= c <= '9'
  {
    ('0' as int + d) as char
  }

  predicate AllDecimalDigits(s: string) {
    forall i :: 0 <= i < |s| ==> '0' <= s[i] <= '9'
  }

  /** Decimal text of a natural number, without leading zeros. */
  function NatToString(n: nat): (r: string)
    ensures r != [] && AllDecimalDigits(r)
    ensures r[0] == '0' ==> n == 0 && r == "0"
  {
    if n < 10 then [DigitChar(n)]
    else NatToString(n / 10) + [DigitChar(n % 10)]
  }

  /** `String(n)` for a `bigint`: a minus sign for negative values, then the decimal digits. */
  function IntToString(i: int): (r: string)
    ensures r != [] && IsTrimmed(r)
    ensures r[0] == '-' <==> i < 0
    ensures var digits := if i < 0 then r[1..] else r;
      && digits != [] && AllDecimalDigits(digits)
      && (digits[0] == '0' ==> i == 0 && r == "0")
  {
    if i < 0 then "-" + NatToString(-i) else NatToString(i)
  }

  /** Value of a digit character in bases up to 16 (either letter case). */
  function DigitValue(c: char): Option<nat> {
    if '0' <= c <= '9' then Some(c as int - '0' as int)
    else if 'a' <= c <= 'f' then Some(c as int - 'a' as int + 10)
    else if 'A' <= c <= 'F' then Some(c as int - 'A' as int + 10)
    else None
  }

  predicate IsDigitIn(c: char, radix: nat) {
    DigitValue(c).Some? && DigitValue(c).value < radix
  }

  /** A non-empty run of base-`radix` digits, most significant first. */
  function ParseDigits(s: string, radix: nat): (r: Option<nat>)
    requires 2 <= radix <= 16
    ensures r.Some? <==> s != [] && forall i :: 0 <= i < |s| ==> IsDigitIn(s[i], radix)
  {
    if s == [] || !IsDigitIn(s[|s| - 1], radix) then None
    else if |s| == 1 then Some(DigitValue(s[0]).value)
    else
      match ParseDigits(s[..|s| - 1], radix)
      case None =>
        None
      case Some(v) =>
        Some(v * radix + DigitValue(s[|s| - 1]).value)
  }

  function Negate(r: Option<nat>): Option<int> {
    match r
    case None => None
    case Some(v) => Some(-(v as int))
  }

  function Widen(r: Option<nat>): Option<int> {
    match r
    case None => None
    case Some(v) => Some(v)
  }

  /** `BigInt(text)`: surrounding whitespace is ignored, blank text is 0, a
      `0x`/`0o`/`0b` prefix selects base 16/8/2 (unsigned), otherwise an
      optionally signed decimal. `None` stands for the SyntaxError thrown on
      anything else. */
  function ParseBigInt(s: string): (r: Option<int>)
    ensures AllWhitespace(s) ==> r == Some(0)
    ensures r.None? ==> !AllWhitespace(s)
  {
    ParseTrimmed(Trim(s))
  }

  /** `BigInt` on text already stripped of surrounding whitespace. */
  function ParseTrimmed(t: string): Option<int> {
    if t == [] then Some(0)
    else if HasRadixPrefix(t) then Widen(ParseDigits(t[2..], PrefixRadix(t[1])))
    else ParseDecimal(t)
  }

  /** `0x`, `0o` or `0b` in either case. */
  predicate HasRadixPrefix(t: string) {
    |t| >= 2 && t[0] == '0' && t[1] in {'x', 'X', 'o', 'O', 'b', 'B'}
  }

  function PrefixRadix(c: char): (radix: nat)
    ensures 2 <= radix <= 16
  {
    if c == 'x' || c == 'X' then 16
    else if c == 'o' || c == 'O' then 8
    else 2
  }

  /** An optionally signed run of decimal digits. */
  function ParseDecimal(t: string): Option<int> {
    if t != [] && t[0] == '-' then Negate(ParseDigits(t[1..], 10))
    else if t != [] && t[0] == '+' then Widen(ParseDigits(t[1..], 10))
    else Widen(ParseDigits(t, 10))
  }

  /** Reading back the decimal text of a natural number gives the number. */
  lemma {:induction false} NatToStringRoundTrip(n: nat)
    ensures ParseDigits(NatToString(n), 10) == Some(n)
  {
    if n >= 10 {
      NatToStringRoundTrip(n / 10);
      var s := NatToString(n);
      assert s[..|s| - 1] == NatToString(n / 10);
    }
  }

  /** The text of an integer reads back as that integer once whitespace is stripped. */
  lemma ParseTrimmedIntToString(i: int)
    ensures ParseTrimmed(IntToString(i)) == Some(i)
  {
    ParseDecimalIntToString(i);
    var s := IntToString(i);
    assert !HasRadixPrefix(s);
  }

  lemma ParseDecimalIntToString(i: int)
    ensures ParseDecimal(IntToString(i)) == Some(i)
  {
    if i < 0 {
      ParseDecimalNegative(i);
    } else {
      ParseDecimalNonNegative(i);
    }
  }

  lemma ParseDecimalNegative(i: int)
    requires i < 0
    ensures ParseDecimal(IntToString(i)) == Some(i)
  {
    var digits := NatToString(-i);
    var t := IntToString(i);
    assert t == "-" + digits;
    assert t[1..] == digits;
    NatToStringRoundTrip(-i);
    assert ParseDigits(t[1..], 10) == Some(-i);
  }

  lemma ParseDecimalNonNegative(i: int)
    requires i >= 0
    ensures ParseDecimal(IntToString(i)) == Some(i)
  {
    var t := IntToString(i);
    assert t == NatToString(i);
    NatToStringRoundTrip(i);
    assert t[0] != '-' && t[0] != '+';
  }

  /** `BigInt(String(i)) == i` for every integer. */
  lemma IntToStringRoundTrip(i: int)
    ensures ParseBigInt(IntToString(i)) == Some(i)
  {
    TrimOfTrimmed(IntToString(i));
    ParseTrimmedIntToString(i);
  }
}

=== FILE: resume_profile.dfy ===
/** The profile's location as one display string (`useLocationString` in
    hooks/useResumeProfile.ts). */
module ResumeProfileHooks {
  import opened Wrappers
  import opened Seqs
  import opened Text
  import opened Backend

  const Separator: string := ", "

  /** JavaScript truthiness of a string. */
  predicate NonEmpty(s: string) {
    s != ""
  }

  /** The truthy (non-empty) parts among city, region and country, in that order. */
  function LocationParts(loc: GeoLocation): seq<string> {
    Filter([loc.city, loc.region, loc.country], NonEmpty)
  }

  /** A part as it survives the filter: itself when non-empty, nothing otherwise. */
  function Kept(s: string): seq<string> {
    if NonEmpty(s) then [s] else []
  }

  /** The parts written out one by one. */
  lemma LocationPartsSpelledOut(loc: GeoLocation)
    ensures LocationParts(loc) == Kept(loc.city) + Kept(loc.region) + Kept(loc.country)
  {
    var last := Filter([loc.country], NonEmpty);
    FilterCons(loc.country, [], NonEmpty);
    assert [loc.country] + [] == [loc.country];
    assert last == Kept(loc.country);
    var two := Filter([loc.region, loc.country], NonEmpty);
    FilterCons(loc.region, [loc.country], NonEmpty);
    assert [loc.region] + [loc.country] == [loc.region, loc.country];
    assert two == Kept(loc.region) + last;
    FilterCons(loc.city, [loc.region, loc.country], NonEmpty);
    assert [loc.city] + [loc.region, loc.country] == [loc.city, loc.region, loc.country];
  }

  /** Appends one part to a location string built so far, adding the separator
      only between two non-empty pieces; an independent left-to-right reading
      of the join. */
  function AppendPart(acc: string, part: string): string {
    if part == "" then acc
    else if acc == "" then part
    else acc + Separator + part
  }

  predicate AllNonEmpty(parts: seq<string>) {
    forall i :: 0 <= i < |parts| ==> parts[i] != ""
  }

  /** The join of non-empty parts is empty exactly when there are no parts. */
  lemma {:induction false} JoinEmptyIff(parts: seq<string>)
    requires AllNonEmpty(parts)
    ensures Join(parts, Separator) == "" <==> parts == []
  {
    if |parts| >= 2 {
      assert |Join(parts, Separator)| >= |parts[0]| > 0;
    }
  }

  /** Joining the kept parts agrees with appending them one at a time. */
  lemma JoinKeptIsPartByPart(parts: seq<string>, x: string)
    requires AllNonEmpty(parts)
    ensures AllNonEmpty(parts + Kept(x))
    ensures Join(parts + Kept(x), Separator) == AppendPart(Join(parts, Separator), x)
  {
    JoinEmptyIff(parts);
    if x != "" && parts != [] {
      JoinSnoc(parts, x, Separator);
    }
    if x == "" {
      assert parts + Kept(x) == parts;
    }
    if parts == [] {
      assert parts + Kept(x) == Kept(x);
    }
  }

  /** `''` without a profile; otherwise the non-empty parts joined with `", "`. */
  function LocationString(profile: Option<ResumeProfile>): (r: string)
    ensures profile.None? ==> r == ""
    ensures profile.Some? ==>
      var loc := profile.value.location;
      r == "" <==> loc.city == "" && loc.region == "" && loc.country == ""
  {
    match profile
    case None => ""
    case Some(p) =>
      var loc := p.location;
      LocationPartsSpelledOut(loc);
      assert AllNonEmpty(LocationParts(loc));
      JoinEmptyIff(LocationParts(loc));
      Join(LocationParts(loc), Separator)
  }

  /** The joined string equals the part-by-part construction: no empty segment
      and no stray separator ever appears. */
  lemma LocationStringIsPartByPart(p: ResumeProfile)
    ensures LocationString(Some(p)) ==
      AppendPart(AppendPart(AppendPart("", p.location.city), p.location.region), p.location.country)
  {
    var loc := p.location;
    LocationPartsSpelledOut(loc);
    JoinKeptIsPartByPart([], loc.city);
    assert [] + Kept(loc.city) == Kept(loc.city);
    JoinKeptIsPartByPart(Kept(loc.city), loc.region);
    JoinKeptIsPartByPart(Kept(loc.city) + Kept(loc.region), loc.country);
  }

  /** With exactly one non-empty part the string is that part, with no separator. */
  lemma SinglePartHasNoSeparator(p: ResumeProfile, part: string)
    requires part != ""
    requires var loc := p.location;
      || (loc.city == part && loc.region == "" && loc.country == "")
      || (loc.city == "" && loc.region == part && loc.country == "")
      || (loc.city == "" && loc.region == "" && loc.country == part)
    ensures LocationString(Some(p)) == part
  {
    LocationStringIsPartByPart(p);
  }

  /** An empty region leaves no empty segment: city `A`, country `C` gives `"A, C"`. */
  lemma EmptyRegionIsSkipped(radius: Option<int>)
    ensures LocationString(Some(ResumeProfile("", "", GeoLocation("", "C", "A", radius)))) == "A, C"
  {
    LocationStringIsPartByPart(ResumeProfile("", "", GeoLocation("", "C", "A", radius)));
  }
}

=== FILE: seqs.dfy ===
/** The array operations the client relies on (`filter`, `find`/`findIndex`, `indexOf`),
    over immutable sequences. */
module Seqs {
  import opened Wrappers

  /** `a` can be obtained from `b` by deleting elements: nothing added,
      duplicated or reordered. */
  ghost predicate IsSubsequence<T>(a: seq<T>, b: seq<T>)
    decreases |b|
  {
    if a == [] then true
    else if b == [] then false
    else (a[0] == b[0] && IsSubsequence(a[1..], b[1..])) || IsSubsequence(a, b[1..])
  }

  /** Every sequence is a subsequence of itself. */
  lemma {:induction false} SubsequenceReflexive<T>(s: seq<T>)
    ensures IsSubsequence(s, s)
  {
    if s != [] {
      SubsequenceReflexive(s[1..]);
    }
  }

  /** Deleting elements twice is deleting elements once. */
  lemma {:induction false} SubsequenceTransitive<T>(a: seq<T>, b: seq<T>, c: seq<T>)
    requires IsSubsequence(a, b) && IsSubsequence(b, c)
    ensures IsSubsequence(a, c)
    decreases |c|
  {
    if a != [] && b != [] && c != [] {
      if b[0] == c[0] && IsSubsequence(b[1..], c[1..]) {
        if a[0] == b[0] && IsSubsequence(a[1..], b[1..]) {
          SubsequenceTransitive(a[1..], b[1..], c[1..]);
        } else {
          SubsequenceTransitive(a, b[1..], c[1..]);
        }
      } else {
        SubsequenceTransitive(a, b, c[1..]);
      }
    }
  }

  /** `Array.prototype.filter`: the elements satisfying `p`, in their original order. */
  function Filter<T(!new)>(s: seq<T>, p: T -> bool): (r: seq<T>)
    ensures |r| <= |s|
    ensures forall x :: x in r <==> x in s && p(x)
    ensures IsSubsequence(r, s)
  {
    if s == [] then []
    else if p(s[0]) then [s[0]] + Filter(s[1..], p)
    else Filter(s[1..], p)
  }

  /** Filtering a sequence with a known head decides that head, then filters the rest. */
  lemma FilterCons<T(!new)>(x: T, s: seq<T>, p: T -> bool)
    ensures Filter([x] + s, p) == (if p(x) then [x] else []) + Filter(s, p)
  {
    assert ([x] + s)[1..] == s;
  }

  /** Filtering twice with the same predicate changes nothing the second time. */
  lemma {:induction false} FilterIdempotent<T(!new)>(s: seq<T>, p: T -> bool)
    ensures Filter(Filter(s, p), p) == Filter(s, p)
  {
    if s != [] {
      FilterIdempotent(s[1..], p);
      if p(s[0]) {
        assert ([s[0]] + Filter(s[1..], p))[1..] == Filter(s[1..], p);
      }
    }
  }

  /** Two filters may be applied in either order. */
  lemma {:induction false} FilterCommute<T(!new)>(s: seq<T>, p: T -> bool, q: T -> bool)
    ensures Filter(Filter(s, p), q) == Filter(Filter(s, q), p)
  {
    if s != [] {
      FilterCommute(s[1..], p, q);
      var x := s[0];
      if p(x) {
        assert ([x] + Filter(s[1..], p))[1..] == Filter(s[1..], p);
      }
      if q(x) {
        assert ([x] + Filter(s[1..], q))[1..] == Filter(s[1..], q);
      }
    }
  }

  /** A filter keeps every copy of a satisfying element and no copy of any other. */
  lemma {:induction false} FilterMultiset<T(!new)>(s: seq<T>, p: T -> bool)
    ensures forall x :: multiset(Filter(s, p))[x] == if p(x) then multiset(s)[x] else 0
  {
    if s != [] {
      FilterMultiset(s[1..], p);
      assert s == [s[0]] + s[1..];
    }
  }

  /** The index `Array.prototype.find`/`findIndex` stops at: the first element
      satisfying `p`, or nothing when no element does. */
  function FindFirst<T>(s: seq<T>, p: T -> bool): (r: Option<nat>)
    ensures r.Some? ==> r.value < |s| && p(s[r.value])
    ensures r.Some? ==> forall j :: 0 <= j < r.value ==> !p(s[j])
    ensures r.None? <==> forall j :: 0 <= j < |s| ==> !p(s[j])
  {
    if s == [] then None
    else if p(s[0]) then Some(0)
    else
      match FindFirst(s[1..], p)
      case None => None
      case Some(k) => Some(k + 1)
  }

  /** The first position holding a value equal to `x`, or -1. JavaScript's
      `indexOf` on an array of objects compares identity rather than value;
      the two agree wherever the value searched for is the first element equal
      to itself, which is how the application dialog uses it. */
  function IndexOf<T(==)>(s: seq<T>, x: T): (r: int)
    ensures -1 <= r < |s|
    ensures r == -1 <==> x !in s
    ensures r >= 0 ==> s[r] == x && forall j :: 0 <= j < r ==> s[j] != x
  {
    match FindFirst(s, y => y == x)
    case None => -1
    case Some(i) => i
  }
}

=== FILE: status_pill.dfy ===
/** The status pill: the label and badge variant of each application status
    (components/ApplicationStatusPill.tsx). */
module StatusPill {
  import opened Wrappers
  import opened Backend
  import opened Badge
  import opened Text

  datatype Config = Config(caption: string, variant: Variant)

  /** A name with its first letter in upper case. */
  function Capitalised(name: string): string {
    if name == [] then [] else [UpperChar(name[0])] + name[1..]
  }

  /** The `statusConfig` table, total over the five statuses. Each caption is
      the status's own name with a capital letter, except that a pending
      application reads "Draft"; only a rejection is destructive. */
  function StatusConfig(s: ApplicationStatus): (r: Config)
    ensures s != Pending ==> r.caption == Capitalised(StatusName(s))
    ensures s == Pending <==> r.caption == "Draft"
    ensures r.variant == Destructive <==> s == Rejected
    ensures r.variant == Secondary <==> s == Interviewing
    ensures r.variant == Outline <==> s == Pending
    ensures r.variant == Default <==> s == Applied || s == Offered
  {
    match s
    case Pending => Config("Draft", Outline)
    case Applied => Config("Applied", Default)
    case Interviewing => Config("Interviewing", Secondary)
    case Offered => Config("Offered", Default)
    case Rejected => Config("Rejected", Destructive)
  }

  /** Reading a pill's label back to its status: the inverse of the table. */
  function StatusOfCaption(caption: string): (r: Option<ApplicationStatus>)
    ensures r.Some? ==> StatusConfig(r.value).caption == caption
    ensures r.None? <==> forall s :: StatusConfig(s).caption != caption
  {
    if caption == "Draft" then Some(Pending)
    else if caption == "Applied" then Some(Applied)
    else if caption == "Interviewing" then Some(Interviewing)
    else if caption == "Offered" then Some(Offered)
    else if caption == "Rejected" then Some(Rejected)
    else None
  }

  /** Every status has a label that identifies it: no two statuses share one. */
  lemma LabelsIdentifyStatus(s: ApplicationStatus)
    ensures StatusOfCaption(StatusConfig(s).caption) == Some(s)
  {
  }

  /** A pending application is shown as an outlined "Draft". */
  lemma PendingIsDraft()
    ensures StatusConfig(Pending) == Config("Draft", Outline)
  {
  }

  /** Only a rejection is shown as destructive. */
  lemma OnlyRejectedIsDestructive(s: ApplicationStatus)
    ensures StatusConfig(s).variant == Destructive <==> s == Rejected
  {
  }

  /** Applied and offered share the default variant but not their label. */
  lemma AppliedAndOfferedShareVariant()
    ensures StatusConfig(Applied).variant == StatusConfig(Offered).variant == Default
    ensures StatusConfig(Applied).caption != StatusConfig(Offered).caption
  {
  }
}

=== FILE: text.dfy ===
/** The JavaScript string operations the client's decision rules use:
    `trim`, `toLowerCase`, `includes` and `join`. */
module Text {

  /** The characters `String.prototype.trim` removes: the ECMAScript WhiteSpace
      set (tab, vertical tab, form feed, space, no-break space, the byte order
      mark and the Unicode space separators) and the LineTerminator set
      (line feed, carriage return, line and paragraph separators). */
  predicate IsWhitespace(c: char) {
    var n := c as int;
    || n == 0x09 || n == 0x0A || n == 0x0B || n == 0x0C || n == 0x0D
    || n == 0x20 || n == 0xA0 || n == 0x1680
    || (0x2000 <= n <= 0x200A)
    || n == 0x2028 || n == 0x2029 || n == 0x202F || n == 0x205F
    || n == 0x3000 || n == 0xFEFF
  }

  predicate AllWhitespace(s: string) {
    forall i :: 0 <= i < |s| ==> IsWhitespace(s[i])
  }

  /** Neither end of `s` is whitespace: `s` is its own trim. */
  predicate IsTrimmed(s: string) {
    s == [] || (!IsWhitespace(s[0]) && !IsWhitespace(s[|s| - 1]))
  }

  /** `r` sits in `s` at offset `i` with only whitespace on either side of it. */
  ghost predicate FramedAt(s: string, r: string, i: nat) {
    && i + |r| <= |s|
    && s[i..i + |r|] == r
    && AllWhitespace(s[..i])
    && AllWhitespace(s[i + |r|..])
  }

  /** `String.prototype.trimStart`. */
  function TrimStart(s: string): (r: string)
    ensures |r| <= |s| && r == s[|s| - |r|..]
    ensures AllWhitespace(s[..|s| - |r|])
    ensures r == [] || !IsWhitespace(r[0])
  {
    if s != [] && IsWhitespace(s[0]) then TrimStart(s[1..]) else s
  }

  /** `String.prototype.trimEnd`. */
  function TrimEnd(s: string): (r: string)
    ensures |r| <= |s| && r == s[..|r|]
    ensures AllWhitespace(s[|r|..])
    ensures r == [] || !IsWhitespace(r[|r| - 1])
  {
    if s != [] && IsWhitespace(s[|s| - 1]) then TrimEnd(s[..|s| - 1]) else s
  }

  /** `String.prototype.trim`: the longest stretch of `s` that neither starts
      nor ends with whitespace (see `TrimIsFramed` for where it sits in `s`). */
  function Trim(s: string): (r: string)
    ensures IsTrimmed(r)
    ensures |r| <= |s|
    ensures r == [] <==> AllWhitespace(s)
  {
    var t := TrimStart(s);
    var r := TrimEnd(t);
    assert r == [] ==> AllWhitespace(s) by {
      if r == [] {
        assert t[|r|..] == t;
        assert t == [];
        assert s[..|s| - |t|] == s;
      }
    }
    r
  }

  /** The trimmed text is a stretch of the original with only whitespace cut
      from either side. */
  lemma TrimIsFramed(s: string)
    ensures exists i: nat :: FramedAt(s, Trim(s), i)
  {
    var t := TrimStart(s);
    var r := TrimEnd(t);
    assert r == Trim(s);
    assert FramedAt(s, r, |s| - |t|) by {
      assert s[|s| - |t|..][..|r|] == s[|s| - |t|..|s| - |t| + |r|];
      assert s[|s| - |t| + |r|..] == t[|r|..];
    }
  }

  /** Trimming a string that already has no whitespace at either end returns it unchanged. */
  lemma TrimOfTrimmed(s: string)
    requires IsTrimmed(s)
    ensures Trim(s) == s
  {
  }

  /** Trimming is idempotent. */
  lemma TrimIdempotent(s: string)
    ensures Trim(Trim(s)) == Trim(s)
  {
    TrimOfTrimmed(Trim(s));
  }

  /** `toLowerCase`, restricted to the ASCII letters. */
  function LowerChar(c: char): char {
    if 'A' <= c <= 'Z' then (c as int + 32) as char else c
  }

  function UpperChar(c: char): char {
    if 'a' <= c <= 'z' then (c as int - 32) as char else c
  }

  function Lower(s: string): (r: string)
    ensures |r| == |s|
    ensures forall i :: 0 <= i < |s| ==> r[i] == LowerChar(s[i])
  {
    if s == [] then [] else [LowerChar(s[0])] + Lower(s[1..])
  }

  /** Lower-casing twice is lower-casing once. */
  lemma LowerIdempotent(s: string)
    ensures Lower(Lower(s)) == Lower(s)
  {
    assert forall i :: 0 <= i < |s| ==> LowerChar(LowerChar(s[i])) == LowerChar(s[i]);
  }

  /** `needle` occurs in `hay` starting at position `i`. */
  ghost predicate OccursAt(hay: string, needle: string, i: nat) {
    i + |needle| <= |hay| && hay[i..i + |needle|] == needle
  }

  /** `hay.includes(needle)`, scanning left to right; the empty needle occurs everywhere. */
  function Includes(hay: string, needle: string): (r: bool)
    ensures r <==> exists i: nat :: OccursAt(hay, needle, i)
    decreases |hay|
  {
    if |needle| > |hay| then
      assert forall i: nat :: !OccursAt(hay, needle, i);
      false
    else if hay[..|needle|] == needle then
      assert OccursAt(hay, needle, 0);
      true
    else
      var rest := Includes(hay[1..], needle);
      assert rest ==> exists i: nat :: OccursAt(hay, needle, i) by {
        if rest {
          var i: nat :| OccursAt(hay[1..], needle, i);
          assert hay[1..][i..i + |needle|] == hay[i + 1..i + 1 + |needle|];
          assert OccursAt(hay, needle, i + 1);
        }
      }
      assert (exists i: nat :: OccursAt(hay, needle, i)) ==> rest by {
        if exists i: nat :: OccursAt(hay, needle, i) {
          var i: nat :| OccursAt(hay, needle, i);
          assert i != 0;
          assert hay[1..][i - 1..i - 1 + |needle|] == hay[i..i + |needle|];
          assert OccursAt(hay[1..], needle, i - 1);
        }
      }
      rest
  }

  /** `parts.join(sep)`. */
  function Join(parts: seq<string>, sep: string): (r: string)
    ensures parts == [] ==> r == ""
    ensures |parts| == 1 ==> r == parts[0]
    ensures parts != [] ==> parts[0] <= r
  {
    if |parts| == 0 then ""
    else if |parts| == 1 then parts[0]
    else parts[0] + sep + Join(parts[1..], sep)
  }

  /** Joining one more part adds the separator and that part at the end. */
  lemma {:induction false} JoinSnoc(parts: seq<string>, x: string, sep: string)
    requires parts != []
    ensures Join(parts + [x], sep) == Join(parts, sep) + sep + x
  {
    if |parts| == 1 {
      assert (parts + [x])[1..] == [x];
    } else {
      JoinSnoc(parts[1..], x, sep);
      assert (parts + [x])[1..] == parts[1..] + [x];
    }
  }
}

=== FILE: wrappers.dfy ===
/** Optional values and success/failure results, standing in for the
    `undefined`/`null` values and thrown errors of the client code. */
module Wrappers {

  datatype Option<+T> = None | Some(value: T) {

    /** The wrapped value, or `default` when there is none (JavaScript's `x ?? d`). */
    function GetOr(default: T): T {
      match this
      case Some(v) => v
      case None => default
    }
  }

  datatype Result<+R, +E> = Success(value: R) | Failure(error: E)
}
